=== FILE: README.md ===
# Budget, goal and context rules of a personal-finance tracker, in Dafny

This project models the derived-state logic of a small personal-finance app. The app records
incomes, expenses and savings goals. From these it derives:

- a budget verdict (`agents/budget_agent.py`);
- per-goal progress (`agents/goal_agent.py`);
- a grounding string for a chat assistant (`agents/context_agent.py`).

It also keeps a persisted context cache with a capped chat log (`context_store.py`).
Each of these is modelled as pure functions over in-memory records, and the properties the code
promises are proved about them.

Modules, one per source component:

- `Ledger`: the `Income`, `Expense` and `Goal` records of `models.py`. It also holds the
  totals every component recomputes, `sum(x.amount for x in ...)`.
- `BudgetAgent`: `get_budget_summary`. The first-match rule chain becomes `Classify`, which
  returns one of four verdicts with the source's exact status and advice strings.
- `GoalAgent`: `get_goal_progress`. It computes a percentage of total income per goal, with
  the zero-target guard, the `min(100, ...)` cap and the 50% status threshold.
- `ContextAgent`: `build_context`. It covers goal progress based on the balance (unclamped, 0
  for a target at or below zero), the last three incomes and expenses, the joins, and the
  f-string template.
- `ContextStore`: the JSON file is a `Store = Option<ContextDoc>`, where `None` means the file
  does not exist and a document is a map from keys to JSON `Value`s (null, booleans,
  numbers, strings, lists and objects). Each of
  `write_context`, `init_context`, `update_context`, `read_context`, `append_chat_history`
  and `get_chat_history` is a transition from the store before the call to the store after it.
  A typed view (`ContextView`, with `Decode`/`Encode` and a round trip) states what a
  well-formed document holds. Python's exceptions become a `Result`:
  - `FileMissing`: `update_context` found no file.
  - `ChatHistoryNotAList`: a `chat_history` that is not a list has no `append`.
- `Policies`: how the two budget-status rules relate, and how the two goal rules relate. The
  two budget rules are the agent's chain and the sign test in `write_context`. The two goal
  rules are income-based and balance-based. Both pairs are kept as the code has them, side by
  side. Agreement and divergence are proved as lemmas.
- `Seqs` and `Optional`: sum, last-`k` slicing, capped appends, `str.join` and `Option`.

Amounts are exact reals, so the 0.7 threshold is exactly 7/10. Number-to-text conversion
(`str(amount)`, `:.1f`, `:.2f`) is a `Formats` parameter of three uninterpreted functions.

Points of the code that the model keeps as written:

- The balance-based progress of `build_context` is negative for a negative balance and is not
  capped (`agents/context_agent.py:15`).
- The goal agent's second status is "Needs Focus" (`agents/goal_agent.py:18`), while the
  context builder's is "Needs Attention" (`agents/context_agent.py:16`).
- Both goal policies are modelled, each in its own module, and `Policies` relates them.
- `append_chat_history` appends and then keeps the last 50 (`context_store.py:78-81`). So one
  append leaves the last 49 old turns followed by the new one.

## Model

| member | source | states |
|---|---|---|
| Ledger.TotalIncome | agents/budget_agent.py:8 | `sum(income.amount for income in incomes)`, the total every component recomputes over all incomes (also agents/goal_agent.py:9, agents/context_agent.py:8, context_store.py:13); its properties are the `TotalIncome*` lemmas below |
| Ledger.TotalExpense | agents/budget_agent.py:9 | `sum(expense.amount for expense in expenses)` over all expenses (also agents/context_agent.py:9, context_store.py:14); its properties are the `TotalExpense*` lemmas below |
| Ledger.Balance | agents/budget_agent.py:11 | total income minus total expense over all records (also agents/context_agent.py:10, context_store.py:15); `BudgetAgent.GetBudgetSummary`, `ContextStore.WriteContext` and `ContextAgent.BuildContext` state it |
| Ledger.TotalIncomeSnoc | agents/budget_agent.py:8 | recording one more income raises the total by exactly its amount |
| Ledger.TotalExpenseSnoc | agents/budget_agent.py:9 | recording one more expense raises the total by exactly its amount |
| Ledger.TotalIncomeAppend | agents/budget_agent.py:8 | the income total of two batches is the sum of their totals |
| Ledger.TotalExpenseAppend | agents/budget_agent.py:9 | the expense total of two batches is the sum of their totals |
| Ledger.TotalIncomeNonNegative | agents/budget_agent.py:8 | with no negative amounts the income total is at least 0 |
| Ledger.TotalExpenseNonNegative | agents/budget_agent.py:9 | with no negative amounts the expense total is at least 0 |
| Seqs.SumAppend | agents/budget_agent.py:8-9 | the sum of a concatenation is the sum of the sums |
| Seqs.SumNonNegative | agents/budget_agent.py:8-9 | a sum of non-negative amounts is non-negative |
| Seqs.Sum | agents/budget_agent.py:8-9 | Python's `sum` of a sequence of amounts, starting at 0; its properties are `Seqs.SumAppend` and `Seqs.SumNonNegative` |
| BudgetAgent.Classify | agents/budget_agent.py:13-24 | exactly one verdict, each characterised by an if-and-only-if: no income iff income is 0; deficit iff income is non-zero and expense exceeds it; warning iff 0.7·income < expense ≤ income; healthy iff expense ≤ income and expense ≤ 0.7·income |
| BudgetAgent.Verdict.Status | agents/budget_agent.py:14-23 | the status literal of each verdict, codepoint for codepoint; `BudgetAgent.Classify` and `BudgetAgent.GetBudgetSummary` fix which verdict, and so which literal, a ledger gets |
| BudgetAgent.Verdict.Advice | agents/budget_agent.py:15-24 | the advice literal of each verdict; fixed for a ledger through `BudgetAgent.Classify` |
| BudgetAgent.ClassifyPositiveIncome | agents/budget_agent.py:19-24 | with positive income, healthy iff expense is at most 70% of income and warning iff it lies strictly above 70% and at most 100% |
| BudgetAgent.ClassifyMonotone | agents/budget_agent.py:13-24 | for fixed positive income, spending more never gives a milder verdict |
| BudgetAgent.ClassifyScaleInvariant | agents/budget_agent.py:13-24 | scaling income and expense by the same positive factor keeps the verdict |
| BudgetAgent.GetBudgetSummary | agents/budget_agent.py:4-32 | the summary echoes both totals over all records and balance = income − expense; no income iff total income is 0; deficit iff income is non-zero and the balance is negative; the verdict (and so its status and advice strings) is the one the rule chain gives for the two totals |
| BudgetAgent.WarningExample | agents/budget_agent.py:19-21 | one income of 100 and one expense of 80 give totals 100/80, balance 20 and the Warning verdict |
| GoalAgent.Cap | agents/goal_agent.py:16 | `min(100, x)`: at most 100 and at most x, and equal to one of them |
| GoalAgent.Percentage | agents/goal_agent.py:13-16 | at most 100; exactly 100 for a zero target; otherwise progress·target = income·100 unless capped at 100; for a positive target it is 100 exactly when income reaches the target, for a negative target exactly when income is at or below it, so below the cap the value is income/target·100; non-negative for non-negative income and a positive target |
| GoalAgent.FullThreshold | agents/goal_agent.py:16 | the uncapped percentage reaches 100 iff income reaches a positive target or is at or below a negative one |
| GoalAgent.StatusOf | agents/goal_agent.py:18 | the label is "On Track 🚀" iff progress ≥ 50 and "Needs Focus ⚠️" iff progress < 50 |
| GoalAgent.HalfThreshold | agents/goal_agent.py:16-18 | the uncapped percentage reaches 50 iff twice the income reaches the target, with the direction depending on the target's sign |
| GoalAgent.StatusFromInputs | agents/goal_agent.py:13-18 | On Track iff the target is 0, or twice the income is at least a positive target, or at most a negative one |
| GoalAgent.Evaluate | agents/goal_agent.py:13-24 | name and target are copied; the progress is the guarded, capped percentage; On Track iff progress ≥ 50 |
| GoalAgent.ProgressList | agents/goal_agent.py:12-25 | one entry per goal with its name and target; every progress is at most 100; On Track iff progress ≥ 50; a zero-target goal is at 100 and On Track |
| GoalAgent.GetGoalProgress | agents/goal_agent.py:4-27 | one entry per goal, in goal order, each the evaluation of that goal against the total of all incomes |
| GoalAgent.ProgressListIsMap | agents/goal_agent.py:12-25 | the list built goal by goal is the pointwise evaluation of each goal |
| GoalAgent.ProgressBounded | agents/goal_agent.py:16 | with non-negative incomes and positive targets every progress lies in [0, 100] |
| ContextAgent.Progress | agents/context_agent.py:15 | 0 for a target at or below 0; otherwise progress·target = balance·100; negative iff the target is positive and the balance negative; above 100 when the balance exceeds a positive target, so it is not clamped |
| ContextAgent.QuotientFacts | agents/context_agent.py:15 | for a positive target the division is exact and a balance above the target gives a quotient above 1 |
| ContextAgent.HalfOfTarget | agents/context_agent.py:15-16 | progress reaches 50 iff the target is positive and twice the balance reaches it |
| ContextAgent.StatusOf | agents/context_agent.py:16 | the label is "On Track 🚀" iff progress ≥ 50 and "Needs Attention ⚠️" iff progress < 50 |
| ContextAgent.EvaluateGoal | agents/context_agent.py:15-17 | the line keeps the goal's name and the balance-based progress; On Track iff the target is positive and twice the balance reaches it, else Needs Attention |
| ContextAgent.Recent | agents/context_agent.py:20-21 | the last min(3, n) records, in their original order |
| ContextAgent.Gather | agents/context_agent.py:8-21 | totals over all records, balance = income − expenses, the recent slices, one goal line per goal, in order, against that balance |
| ContextAgent.RenderIncome | agents/context_agent.py:23 | one income as "$", the amount's text, " from ", the source |
| ContextAgent.RenderExpense | agents/context_agent.py:24 | one expense as "$", the amount's text, " on ", the category |
| ContextAgent.RenderGoal | agents/context_agent.py:17 | one goal line as name, ": ", progress to one place, "% complete (", the status label, ")" |
| ContextAgent.IncomeSegment | agents/context_agent.py:23 | the ", "-join of the incomes it is given (the recent slice) is empty exactly when there are none |
| ContextAgent.ExpenseSegment | agents/context_agent.py:24 | the ", "-join of the expenses it is given (the recent slice) is empty exactly when there are none |
| ContextAgent.GoalSegment | agents/context_agent.py:32 | the goal segment is empty exactly when there are no goals |
| ContextAgent.IncomeSegmentItems | agents/context_agent.py:20-23 | the income segment is the ", "-join of the renderings of the last min(3, n) incomes, oldest first |
| ContextAgent.ExpenseSegmentItems | agents/context_agent.py:21-24 | the expense segment is the ", "-join of the renderings of the last min(3, n) expenses, oldest first |
| ContextAgent.GoalSegmentItems | agents/context_agent.py:13-17 | the goal segment is the "; "-join of one line per goal, in goal order, each judged against the balance |
| ContextAgent.Render | agents/context_agent.py:27-33 | the f-string over the gathered parts; what it produces from the raw records is stated by `ContextAgent.BuildContext` |
| ContextAgent.BuildContext | agents/context_agent.py:3-35 | over the raw records, the string is, in order: "Current balance: $" and the balance (total income − total expenses) to two places; the total income; the total expenses; the ", "-join of the last min(3, n) incomes, oldest first; the same for expenses; the "; "-join of one line per goal, in goal order, each judged against that balance; then "." (so it is non-empty and ends with a period) |
| Seqs.LastNSuffix | agents/context_agent.py:20-21 | the last k elements of a sequence: min(k, n) of them, a suffix, element by element |
| Seqs.LastN | agents/context_agent.py:20-21 | `s[-k:] if len(s) >= k else s` for k > 0 (only 3, 49 and 50 are used; for k = 0 it gives the empty sequence, whereas Python's `s[-0:]` is all of `s`); its properties are `Seqs.LastNSuffix`, `Seqs.LastNSnoc` and `Seqs.LastNAbsorb` |
| Seqs.Join | agents/context_agent.py:23-24 | Python's `sep.join(items)`; its properties are `Seqs.JoinSnoc` and `Seqs.JoinEmptyIff` |
| Seqs.JoinSnoc | agents/context_agent.py:23-24 | joining one more item adds the separator and the item at the end |
| Seqs.JoinEmptyIff | agents/context_agent.py:23-24 | a join of non-empty items is empty exactly when there are no items |
| ContextStore.Encode | context_store.py:20-33 | the written document has exactly the six top-level keys and decodes to the view that was written |
| ContextStore.DecodeGoalsRoundTrip | context_store.py:28-31 | the stored goal list decodes back to the goals written |
| ContextStore.DecodeTurnsSome | context_store.py:78 | a decoded chat list decodes element by element |
| ContextStore.DecodeTurnsOfElements | context_store.py:78 | element-by-element decoding of every turn decodes the whole list |
| ContextStore.DecodeTurnsRoundTrip | context_store.py:78 | stored turns decode back to the turns written |
| ContextStore.WriteContext | context_store.py:8-36 | whatever was stored before, the document has exactly the layout of lines 20-33 (the encoding of its own typed view, so `budget` holds only `status` and `advice` and each goal only `name` and `target`) and the six keys; totals are over all records; balance = income − expense; status "Healthy" iff balance ≥ 0 and "Needs Attention" iff balance < 0, with the matching advice; goals as {name, target} in record order; empty chat history |
| ContextStore.GoalEntries | context_store.py:28-31 | the `{name, target}` entry of each goal, in record order; `ContextStore.WriteContext` states it entry by entry and `ContextStore.DecodeGoalsRoundTrip` reads it back |
| ContextStore.DefaultDocDecodes | context_store.py:42-52 | the placeholder has the six keys and reads as "Unknown", "No data yet.", zero totals and balance, no goals, no chat |
| ContextStore.DefaultDoc | context_store.py:42-52 | the placeholder document is exactly the layout `write_context` uses, filled with "Unknown", "No data yet.", zero totals and balance and no goals; so it has the six top-level keys, `budget` holds only `status` and `advice`, and the chat history is empty |
| ContextStore.InitContext | context_store.py:39-52 | afterwards a document exists; an existing one is untouched; on an absent file exactly the placeholder document is written, with the six keys and an empty chat history |
| ContextStore.InitIdempotent | context_store.py:40 | initialising twice is initialising once |
| ContextStore.ReadContext | context_store.py:65-69 | the document returned is the one stored afterwards; an existing document is returned unchanged; an absent file yields the placeholder |
| ContextStore.ReadFreshStore | context_store.py:65-69 | reading with no file stores the placeholder and returns a document that reads as the default view |
| ContextStore.UpdateContext | context_store.py:55-62 | fails iff no file exists; otherwise the keys are the union, keys in the update take its values, and every other key is unchanged |
| ContextStore.UpdateCompose | context_store.py:59 | two merges in a row are one merge of the two updates, the later winning |
| ContextStore.UpdateIdempotent | context_store.py:59 | merging the same data twice changes nothing the second time |
| ContextStore.History | context_store.py:75-76 | the history an append starts from: empty when `chat_history` is absent, the stored list when it is a list, and no history (an error) exactly when it is present and not a list |
| ContextStore.WriteThenRead | context_store.py:8-36 | a read after a write returns the written document unchanged, and its chat history is empty |
| ContextStore.AppendTurn | context_store.py:75-81 | fails iff a `chat_history` exists and is not a list; otherwise only `chat_history` changes, and it becomes a list of 1 to 50 turns equal to the last 49 old turns (none if absent) followed by the new turn |
| ContextStore.AppendChatHistory | context_store.py:72-84 | fails iff a stored document has a non-list `chat_history`; on success a document is stored, equal to the one read (placeholder if absent) except for `chat_history`, which holds the last 49 old turns followed by the new one, 1 to 50 in all |
| ContextStore.GetChatHistory | context_store.py:87-89 | returns the stored `chat_history`, or an empty list when the key or the file is missing; an existing document is untouched, and an absent file leaves exactly the placeholder document stored |
| ContextStore.AppendThenGet | context_store.py:72-89 | after a successful append, the history read back is a list of at most 50 turns whose last element is the new turn |
| ContextStore.HistoryBoundInvariant | context_store.py:8-84 | the chat history holds at most 50 turns after every init, write and successful append, and after every merge that does not set the history itself |
| ContextStore.UpdateCanExceedBound | context_store.py:59 | a merge that sets `chat_history` to a longer list breaks the bound, which only the append path enforces |
| ContextStore.DecodeWithHistory | context_store.py:78-81 | replacing the history of a well-formed document changes only the history in its typed view |
| ContextStore.DecodeCappedAppend | context_store.py:78-81 | decoding commutes with the capped append |
| ContextStore.AppendToStored | context_store.py:72-84 | appending to a stored document replaces its history by the last 50 of "old history, then the new turn", that is the last 49 old turns followed by the new one |
| ContextStore.DecodeAfterCappedAppend | context_store.py:78-81 | the capped append on a well-formed document, read through the typed view |
| ContextStore.AppendDecodes | context_store.py:72-84 | on a well-formed document the append succeeds, and the typed view is unchanged except that its history is the last 49 old turns followed by the new one |
| ContextStore.AppendAll | context_store.py:72-84 | repeated `append_chat_history` calls, stopping at the first failure; `ContextStore.AppendAllCapped`, `ContextStore.AppendAllKeepsLast` and `ContextStore.FreshStoreKeepsLast50` state what they leave |
| ContextStore.AppendAllStep | context_store.py:72-84 | one append in a sequence of appends is the capped append on the stored history |
| ContextStore.AppendAllCapped | context_store.py:72-84 | appending turns one at a time is the capped append of each in turn; nothing but the history changes |
| ContextStore.AppendAllKeepsLast | context_store.py:78-81 | appending turns one at a time leaves the last 50 of "old history, then all the new turns"; after 50 or more appends no old turn survives |
| ContextStore.AppendFromNone | context_store.py:65-67 | with no file, a run of appends behaves as if the placeholder were stored |
| ContextStore.LastTurnValues | context_store.py:81 | the stored values of the last 50 turns are the last 50 stored values |
| ContextStore.FreshStoreKeepsLast50 | context_store.py:72-84 | from no file, appending n ≥ 50 turns leaves exactly the last 50 of them, in order (60 appends keep turns 11 to 60) |
| Seqs.LastNSnoc | context_store.py:78-81 | keeping the last k after one append is the last k−1 old elements followed by the new one |
| Seqs.LastNAbsorb | context_store.py:81 | truncating to the last k before appending more does not change the last k afterwards |
| Seqs.CappedAppendsIsLastN | context_store.py:78-81 | capping after every append is the same as capping once at the end |
| Policies.DeficitMatchesNeedsAttention | context_store.py:17 | with some income, the agent's deficit verdict holds iff the cache stores "Needs Attention", and every other verdict is stored as "Healthy" |
| Policies.WarningStoredHealthy | context_store.py:17 | a ledger the budget agent warns about (80 spent of 100) is stored as "Healthy": the cache has no warning band |
| Policies.NoIncomeVerdicts | agents/budget_agent.py:13-15 | without income the agent says "No income yet", while the cache says "Needs Attention" iff anything was spent |
| Policies.GoalRulesAgreeWithoutSpending | agents/context_agent.py:15-16 | with nothing spent and a positive target, both goal rules agree on On Track |
| Policies.ContextOnTrackImpliesGoalOnTrack | agents/goal_agent.py:16-18 | with no negative expense, a goal on track by the balance is on track by income too |
| Policies.GoalRulesDiverge | agents/context_agent.py:15-16 | income 100, expenses 100, target 100: On Track for the goal agent, Needs Attention for the context builder |

## Left out

- Flask routes, form handling, templates and the session chat list in `app.py`: request plumbing with no rule of its own.
- The text-generation HTTP call and the emotion classifier (`models.py:6-11`, `emotion_detector.py`): network and a foreign ML library.
- SQLAlchemy models and queries: records are plain Dafny sequences in insertion order, and `id` columns are not modelled.
- Receipt uploads and file names: filesystem I/O. The receipt path is a field of `Expense`, nothing more.
- JSON serialisation and the file itself: the file is `Option<ContextDoc>`. A file whose contents are not valid JSON is not modelled, and neither are failed reads or writes.
- Concurrent read-modify-write on the JSON file: there is no locking, and the model is sequential.
- The distinction between JSON integers and floats: Python ints and floats are both `Num`.
- BudgetAgent.Classify: floating point is not modelled. Amounts are exact reals, so `0.7 * total_income` (`agents/budget_agent.py:19`) is exactly 7/10 of the income, with no rounding at the boundary.
- GoalAgent.Percentage: floating point is not modelled. The division and the multiplication by 100 are exact.
- Non-finite amounts: `float(...)` of a form field accepts `nan` and `inf`, which a real cannot represent. For example a NaN total income makes every test of the rule chain false, so the code reports "Healthy"; the model states nothing about such ledgers.
- A context file holding valid JSON that is not an object (for example `[]`): `update_context` then raises at `context.update` (`context_store.py:59`), `append_chat_history` at line 75 (`in` on null, a number or a boolean), at line 76 (the string-keyed assignment, for a list or a string without `chat_history` in it) or at line 78 (indexing a string that contains `chat_history`) and `get_chat_history` at `context.get` (`context_store.py:89`). A document here is always a map from keys to values, so that file and its errors are not represented.
- GoalAgent.Evaluate: rounding is not modelled. `agents/goal_agent.py:23` returns `round(progress, 2)`, but `GoalProgress.progress` holds the unrounded value. The status uses the unrounded value, as the code does.
- ContextAgent.BuildContext: `str(amount)`, `:.1f` and `:.2f` are uninterpreted `Formats` functions. Properties of the digits they print are not stated.

=== FILE: budget_agent.dfy ===
/** The budget verdict of `get_budget_summary`: a first-match rule chain over the totals. */
module BudgetAgent {
  import opened Ledger

  /** The fraction of income above which spending draws a warning (the source's `0.7`,
      taken here as the exact rational 7/10). */
  const WarningFraction: real := 0.7

  datatype Verdict = NoIncome | Deficit | Warning | Healthy {

    /** The status text the summary reports. */
    function Status(): string {
      match this
      case NoIncome => "No income yet. Add some!"
      case Deficit => "Deficit \U{274C}"
      case Warning => "Warning \U{26A0}\U{FE0F}"
      case Healthy => "Healthy \U{2705}"
    }

    function Advice(): string {
      match this
      case NoIncome => "Try adding income sources to get started."
      case Deficit => "Your expenses exceed your income. Consider reducing spending."
      case Warning => "You're spending more than 70% of your income."
      case Healthy => "Your budget looks good!"
    }

    /** How bad the verdict is among those reachable with income: Healthy < Warning < Deficit. */
    function Severity(): nat {
      match this
      case NoIncome => 0
      case Healthy => 0
      case Warning => 1
      case Deficit => 2
    }
  }

  /** The four-way rule chain; each verdict is characterised by the region of
      (income, expense) it covers, so exactly one applies to every input. */
  function Classify(totalIncome: real, totalExpense: real): (v: Verdict)
    ensures v == NoIncome <==> totalIncome == 0.0
    ensures v == Deficit <==> totalIncome != 0.0 && totalExpense > totalIncome
    ensures v == Warning <==> totalIncome != 0.0 && WarningFraction * totalIncome < totalExpense <= totalIncome
    ensures v == Healthy <==> totalIncome != 0.0 && totalExpense <= totalIncome && totalExpense <= WarningFraction * totalIncome
  {
    if totalIncome == 0.0 then NoIncome
    else if totalExpense > totalIncome then Deficit
    else if totalExpense > WarningFraction * totalIncome then Warning
    else Healthy
  }

  /** With positive income the chain reduces to the two thresholds alone. */
  lemma ClassifyPositiveIncome(totalIncome: real, totalExpense: real)
    requires totalIncome > 0.0
    ensures Classify(totalIncome, totalExpense) == Healthy <==> totalExpense <= WarningFraction * totalIncome
    ensures Classify(totalIncome, totalExpense) == Warning <==> WarningFraction * totalIncome < totalExpense <= totalIncome
  {
  }

  /** For a fixed positive income, spending more never improves the verdict. */
  lemma ClassifyMonotone(totalIncome: real, e1: real, e2: real)
    requires totalIncome > 0.0
    requires e1 <= e2
    ensures Classify(totalIncome, e1).Severity() <= Classify(totalIncome, e2).Severity()
  {
  }

  /** The verdict depends only on the spending ratio: scaling both totals by the same
      positive factor leaves it unchanged. */
  lemma ClassifyScaleInvariant(totalIncome: real, totalExpense: real, c: real)
    requires c > 0.0
    ensures Classify(c * totalIncome, c * totalExpense) == Classify(totalIncome, totalExpense)
  {
    assert c * totalIncome == 0.0 <==> totalIncome == 0.0;
    assert c * totalExpense > c * totalIncome <==> totalExpense > totalIncome;
    assert c * totalExpense > WarningFraction * (c * totalIncome) <==> totalExpense > WarningFraction * totalIncome;
  }

  /** The dictionary `get_budget_summary` returns. */
  datatype BudgetSummary = BudgetSummary(totalIncome: real, totalExpense: real, balance: real, verdict: Verdict)

  /** Totals over all records, the balance, and the verdict on those same totals. */
  function GetBudgetSummary(incomes: seq<Income>, expenses: seq<Expense>): (r: BudgetSummary)
    ensures r.totalIncome == TotalIncome(incomes)
    ensures r.totalExpense == TotalExpense(expenses)
    ensures r.balance == r.totalIncome - r.totalExpense
    ensures r.verdict == NoIncome <==> TotalIncome(incomes) == 0.0
    ensures r.verdict == Deficit <==> TotalIncome(incomes) != 0.0 && r.balance < 0.0
    ensures r.verdict == Classify(r.totalIncome, r.totalExpense)
  {
    var totalIncome := TotalIncome(incomes);
    var totalExpense := TotalExpense(expenses);
    BudgetSummary(totalIncome, totalExpense, totalIncome - totalExpense, Classify(totalIncome, totalExpense))
  }

  /** The worked example: one income of 100 and one expense of 80 is a Warning, since
      80 exceeds 70% of 100. */
  lemma WarningExample()
    ensures GetBudgetSummary([Income(100.0, "job")], [Expense(80.0, "food", 3, Optional.None)])
         == BudgetSummary(100.0, 80.0, 20.0, Warning)
  {
    assert IncomeAmounts([Income(100.0, "job")]) == [100.0];
    assert ExpenseAmounts([Expense(80.0, "food", 3, Optional.None)]) == [80.0];
  }
}

=== FILE: context_agent.dfy ===
/** `build_context`: the grounding string for the conversational model. Its goal lines use
    their own progress policy, measured against the BALANCE, unclamped, and 0 for a
    non-positive target. */
module ContextAgent {
  import opened Seqs
  import opened Ledger

  /** How many of the most recent incomes and expenses the string mentions. */
  const RecentCount: nat := 3

  /** Number-to-text conversions, left uninterpreted: `repr` is Python's `str()` of an
      amount, `fixed1` and `fixed2` are the `:.1f` and `:.2f` format specifications. */
  datatype Formats = Formats(repr: real -> string, fixed1: real -> string, fixed2: real -> string)

  datatype GoalStatus = OnTrack | NeedsAttention {
    function Label(): string {
      match this
      case OnTrack => "On Track \U{1F680}"
      case NeedsAttention => "Needs Attention \U{26A0}\U{FE0F}"
    }
  }

  datatype GoalLine = GoalLine(name: string, progress: real, status: GoalStatus)

  /** Share of the target covered by the balance, in percent; not clamped, and 0 when the
      target is not positive. */
  function Progress(balance: real, target: real): (p: real)
    ensures target <= 0.0 ==> p == 0.0
    ensures target > 0.0 ==> p * target == balance * 100.0
    ensures p < 0.0 <==> target > 0.0 && balance < 0.0
    ensures target > 0.0 && balance > target ==> p > 100.0
  {
    if target > 0.0 then
      QuotientFacts(balance, target);
      (balance / target) * 100.0
    else 0.0
  }

  lemma QuotientFacts(a: real, t: real)
    requires t > 0.0
    ensures (a / t) * t == a
    ensures a > t ==> a / t > 1.0
  {
    var q := a / t;
    assert q * t == a;
  }

  /** `"On Track" if progress >= 50 else "Needs Attention"`. */
  function StatusOf(progress: real): (s: GoalStatus)
    ensures s.Label() == "On Track \U{1F680}" <==> progress >= 50.0
    ensures s.Label() == "Needs Attention \U{26A0}\U{FE0F}" <==> progress < 50.0
  {
    if progress >= 50.0 then OnTrack else NeedsAttention
  }

  /** The 50% threshold read off the inputs: the balance covers at least half of a
      positive target. */
  lemma HalfOfTarget(balance: real, target: real)
    ensures Progress(balance, target) >= 50.0 <==> target > 0.0 && 2.0 * balance >= target
  {
    if target > 0.0 {
      var q := balance / target;
      assert q * target == balance;
      if q >= 0.5 {
        assert q * target >= 0.5 * target;
      } else {
        assert q * target < 0.5 * target;
      }
    }
  }

  /** One goal's line: on track exactly when the target is positive and the balance
      covers at least half of it. */
  function EvaluateGoal(balance: real, goal: Goal): (g: GoalLine)
    ensures g.name == goal.name
    ensures g.progress == Progress(balance, goal.targetAmount)
    ensures g.status == OnTrack <==> goal.targetAmount > 0.0 && 2.0 * balance >= goal.targetAmount
  {
    var p := Progress(balance, goal.targetAmount);
    HalfOfTarget(balance, goal.targetAmount);
    GoalLine(goal.name, p, StatusOf(p))
  }

  /** Everything the string mentions, before rendering. */
  datatype ContextParts = ContextParts(
    balance: real,
    totalIncome: real,
    totalExpenses: real,
    recentIncomes: seq<Income>,
    recentExpenses: seq<Expense>,
    goalLines: seq<GoalLine>)

  /** `incomes[-3:] if len(incomes) >= 3 else incomes`: the most recent records, in their
      original order. */
  function Recent<T>(records: seq<T>): (r: seq<T>)
    ensures |r| <= RecentCount
    ensures |r| == if |records| < RecentCount then |records| else RecentCount
    ensures forall i :: 0 <= i < |r| ==> r[i] == records[|records| - |r| + i]
  {
    LastN(records, RecentCount)
  }

  function Gather(incomes: seq<Income>, expenses: seq<Expense>, goals: seq<Goal>): (c: ContextParts)
    ensures c.totalIncome == TotalIncome(incomes)
    ensures c.totalExpenses == TotalExpense(expenses)
    ensures c.balance == c.totalIncome - c.totalExpenses
    ensures c.recentIncomes == Recent(incomes) && c.recentExpenses == Recent(expenses)
    ensures |c.goalLines| == |goals|
    ensures forall i :: 0 <= i < |goals| ==> c.goalLines[i] == EvaluateGoal(c.balance, goals[i])
  {
    var totalIncome := TotalIncome(incomes);
    var totalExpenses := TotalExpense(expenses);
    var balance := totalIncome - totalExpenses;
    ContextParts(
      balance, totalIncome, totalExpenses,
      Recent(incomes), Recent(expenses),
      seq(|goals|, i requires 0 <= i < |goals| => EvaluateGoal(balance, goals[i])))
  }

  /** `f"${income.amount} from {income.source}"` */
  function RenderIncome(fmt: Formats, x: Income): string
  {
    "$" + fmt.repr(x.amount) + " from " + x.source
  }

  /** `f"${expense.amount} on {expense.category}"` */
  function RenderExpense(fmt: Formats, x: Expense): string
  {
    "$" + fmt.repr(x.amount) + " on " + x.category
  }

  /** `f"{goal.name}: {progress:.1f}% complete ({status})"` */
  function RenderGoal(fmt: Formats, g: GoalLine): string
  {
    g.name + ": " + fmt.fixed1(g.progress) + "% complete (" + g.status.Label() + ")"
  }

  /** The comma-joined rendering of the incomes it is given (the recent slice): empty
      exactly when there are none. */
  function IncomeSegment(fmt: Formats, recent: seq<Income>): (r: string)
    ensures r == "" <==> |recent| == 0
  {
    var items := seq(|recent|, i requires 0 <= i < |recent| => RenderIncome(fmt, recent[i]));
    JoinEmptyIff(", ", items);
    Join(", ", items)
  }

  /** The comma-joined rendering of the expenses it is given (the recent slice): empty
      exactly when there are none. */
  function ExpenseSegment(fmt: Formats, recent: seq<Expense>): (r: string)
    ensures r == "" <==> |recent| == 0
  {
    var items := seq(|recent|, i requires 0 <= i < |recent| => RenderExpense(fmt, recent[i]));
    JoinEmptyIff(", ", items);
    Join(", ", items)
  }

  /** The `"; "`-joined goal lines: empty exactly when there are no goals. */
  function GoalSegment(fmt: Formats, lines: seq<GoalLine>): (r: string)
    ensures r == "" <==> |lines| == 0
  {
    var items := seq(|lines|, i requires 0 <= i < |lines| => RenderGoal(fmt, lines[i]));
    JoinEmptyIff("; ", items);
    Join("; ", items)
  }

  /** The f-string of `build_context`, split at its fields. */
  function Render(fmt: Formats, c: ContextParts): string
  {
    "Current balance: $" + fmt.fixed2(c.balance)
    + ". Total income: $" + fmt.fixed2(c.totalIncome)
    + ". Total expenses: $" + fmt.fixed2(c.totalExpenses)
    + ". Recent incomes: " + IncomeSegment(fmt, c.recentIncomes)
    + ". Recent expenses: " + ExpenseSegment(fmt, c.recentExpenses)
    + ". Goals: " + GoalSegment(fmt, c.goalLines) + "."
  }

  /** The income segment names the last `min(3, n)` incomes, oldest first, and no other. */
  lemma IncomeSegmentItems(fmt: Formats, incomes: seq<Income>)
    ensures var k := if |incomes| < RecentCount then |incomes| else RecentCount;
      IncomeSegment(fmt, Recent(incomes)) == Join(", ", seq(k, i requires 0 <= i < k => RenderIncome(fmt, incomes[|incomes| - k + i])))
  {
    var recent := Recent(incomes);
    var k := |recent|;
    assert seq(|recent|, i requires 0 <= i < |recent| => RenderIncome(fmt, recent[i]))
        == seq(k, i requires 0 <= i < k => RenderIncome(fmt, incomes[|incomes| - k + i]));
  }

  /** The expense segment names the last `min(3, n)` expenses, oldest first, and no other. */
  lemma ExpenseSegmentItems(fmt: Formats, expenses: seq<Expense>)
    ensures var k := if |expenses| < RecentCount then |expenses| else RecentCount;
      ExpenseSegment(fmt, Recent(expenses)) == Join(", ", seq(k, i requires 0 <= i < k => RenderExpense(fmt, expenses[|expenses| - k + i])))
  {
    var recent := Recent(expenses);
    var k := |recent|;
    assert seq(|recent|, i requires 0 <= i < |recent| => RenderExpense(fmt, recent[i]))
        == seq(k, i requires 0 <= i < k => RenderExpense(fmt, expenses[|expenses| - k + i]));
  }

  /** The goal segment has one line per goal, in goal order, each judged against the
      balance of all records, joined by `"; "`. */
  lemma GoalSegmentItems(fmt: Formats, incomes: seq<Income>, expenses: seq<Expense>, goals: seq<Goal>)
    ensures GoalSegment(fmt, Gather(incomes, expenses, goals).goalLines)
         == Join("; ", seq(|goals|, i requires 0 <= i < |goals| => RenderGoal(fmt, EvaluateGoal(Balance(incomes, expenses), goals[i]))))
  {
    var lines := Gather(incomes, expenses, goals).goalLines;
    assert seq(|lines|, i requires 0 <= i < |lines| => RenderGoal(fmt, lines[i]))
        == seq(|goals|, i requires 0 <= i < |goals| => RenderGoal(fmt, EvaluateGoal(Balance(incomes, expenses), goals[i])));
  }

  /** `build_context(db)` over the full record sets: the balance and both totals over all
      records, the last (at most three) incomes and expenses oldest first, and one line per
      goal judged against the balance, in the order the string lists them. */
  function BuildContext(fmt: Formats, incomes: seq<Income>, expenses: seq<Expense>, goals: seq<Goal>): (r: string)
    ensures var ki := if |incomes| < RecentCount then |incomes| else RecentCount;
      var ke := if |expenses| < RecentCount then |expenses| else RecentCount;
      var balance := Balance(incomes, expenses);
      r == "Current balance: $" + fmt.fixed2(balance)
        + ". Total income: $" + fmt.fixed2(TotalIncome(incomes))
        + ". Total expenses: $" + fmt.fixed2(TotalExpense(expenses))
        + ". Recent incomes: " + Join(", ", seq(ki, i requires 0 <= i < ki => RenderIncome(fmt, incomes[|incomes| - ki + i])))
        + ". Recent expenses: " + Join(", ", seq(ke, i requires 0 <= i < ke => RenderExpense(fmt, expenses[|expenses| - ke + i])))
        + ". Goals: " + Join("; ", seq(|goals|, i requires 0 <= i < |goals| => RenderGoal(fmt, EvaluateGoal(balance, goals[i])))) + "."
    ensures |r| > 0 && r[|r| - 1] == '.'
  {
    var c := Gather(incomes, expenses, goals);
    IncomeSegmentItems(fmt, incomes);
    ExpenseSegmentItems(fmt, expenses);
    GoalSegmentItems(fmt, incomes, expenses, goals);
    assert c.balance == Balance(incomes, expenses);
    assert c.recentIncomes == Recent(incomes) && c.recentExpenses == Recent(expenses);
    Render(fmt, c)
  }
}

=== FILE: context_store.dfy ===
/** The persisted context cache. The JSON file is modelled as `Store`, an optional
    document (`None` when the file does not exist); every operation is a transition
    from the store before the call to the store after it. */
module ContextStore {
  import opened Optional
  import opened Seqs
  import opened Ledger

  /** A JSON value as `json.load` returns it. */
  datatype Value =
    | Null
    | Bool(b: bool)
    | Num(num: real)
    | Str(str: string)
    | List(items: seq<Value>)
    | Obj(fields: map<string, Value>)

  type ContextDoc = map<string, Value>

  type Store = Option<ContextDoc>

  const BudgetKey: string := "budget"
  const StatusKey: string := "status"
  const AdviceKey: string := "advice"
  const TotalIncomeKey: string := "total_income"
  const TotalExpenseKey: string := "total_expense"
  const BalanceKey: string := "balance"
  const GoalsKey: string := "goals"
  const ChatKey: string := "chat_history"
  const NameKey: string := "name"
  const TargetKey: string := "target"
  const SenderKey: string := "sender"
  const MessageKey: string := "message"

  /** The keys `write_context` and `init_context` put in the document. */
  const DocKeys: set<string> := {BudgetKey, TotalIncomeKey, TotalExpenseKey, BalanceKey, GoalsKey, ChatKey}

  /** How many chat turns `append_chat_history` keeps. */
  const MaxHistory: nat := 50

  /** Failures the file operations raise: reading a file that does not exist, and
      appending to a `chat_history` entry that is not a list. */
  datatype StoreError = FileMissing | ChatHistoryNotAList

  datatype Result<T> = Ok(value: T) | Err(error: StoreError)

  datatype GoalEntry = GoalEntry(name: string, target: real)

  datatype ChatTurn = ChatTurn(sender: string, message: string)

  /** The typed reading of a well-formed document. */
  datatype ContextView = ContextView(
    status: string,
    advice: string,
    totalIncome: real,
    totalExpense: real,
    balance: real,
    goals: seq<GoalEntry>,
    chatHistory: seq<ChatTurn>)

  // ---------------------------------------------------------------------------
  // Document layout

  function GoalValue(g: GoalEntry): Value
  {
    Obj(map[NameKey := Str(g.name), TargetKey := Num(g.target)])
  }

  function TurnValue(t: ChatTurn): Value
  {
    Obj(map[SenderKey := Str(t.sender), MessageKey := Str(t.message)])
  }

  function GoalValues(gs: seq<GoalEntry>): seq<Value>
  {
    seq(|gs|, i requires 0 <= i < |gs| => GoalValue(gs[i]))
  }

  function TurnValues(ts: seq<ChatTurn>): seq<Value>
  {
    seq(|ts|, i requires 0 <= i < |ts| => TurnValue(ts[i]))
  }

  function GetStr(m: map<string, Value>, k: string): Option<string>
  {
    if k in m && m[k].Str? then Some(m[k].str) else None
  }

  function GetNum(m: map<string, Value>, k: string): Option<real>
  {
    if k in m && m[k].Num? then Some(m[k].num) else None
  }

  function GetList(m: map<string, Value>, k: string): Option<seq<Value>>
  {
    if k in m && m[k].List? then Some(m[k].items) else None
  }

  function GetObj(m: map<string, Value>, k: string): Option<map<string, Value>>
  {
    if k in m && m[k].Obj? then Some(m[k].fields) else None
  }

  function DecodeGoal(v: Value): Option<GoalEntry>
  {
    if v.Obj? then
      var name :- GetStr(v.fields, NameKey);
      var target :- GetNum(v.fields, TargetKey);
      Some(GoalEntry(name, target))
    else None
  }

  function DecodeTurn(v: Value): Option<ChatTurn>
  {
    if v.Obj? then
      var sender :- GetStr(v.fields, SenderKey);
      var message :- GetStr(v.fields, MessageKey);
      Some(ChatTurn(sender, message))
    else None
  }

  function DecodeGoals(vs: seq<Value>): Option<seq<GoalEntry>>
  {
    if |vs| == 0 then Some([])
    else
      var g :- DecodeGoal(vs[0]);
      var rest :- DecodeGoals(vs[1..]);
      Some([g] + rest)
  }

  function DecodeTurns(vs: seq<Value>): Option<seq<ChatTurn>>
  {
    if |vs| == 0 then Some([])
    else
      var t :- DecodeTurn(vs[0]);
      var rest :- DecodeTurns(vs[1..]);
      Some([t] + rest)
  }

  /** Reads a document as a context view; `None` when a field is missing or has the
      wrong shape. Extra keys are ignored. */
  function Decode(doc: ContextDoc): Option<ContextView>
  {
    var budget :- GetObj(doc, BudgetKey);
    var status :- GetStr(budget, StatusKey);
    var advice :- GetStr(budget, AdviceKey);
    var totalIncome :- GetNum(doc, TotalIncomeKey);
    var totalExpense :- GetNum(doc, TotalExpenseKey);
    var balance :- GetNum(doc, BalanceKey);
    var goalItems :- GetList(doc, GoalsKey);
    var goals :- DecodeGoals(goalItems);
    var chatItems :- GetList(doc, ChatKey);
    var chat :- DecodeTurns(chatItems);
    Some(ContextView(status, advice, totalIncome, totalExpense, balance, goals, chat))
  }

  lemma {:induction false} DecodeGoalsRoundTrip(gs: seq<GoalEntry>)
    ensures DecodeGoals(GoalValues(gs)) == Some(gs)
    decreases |gs|
  {
    if |gs| > 0 {
      assert GoalValues(gs)[1..] == GoalValues(gs[1..]);
      DecodeGoalsRoundTrip(gs[1..]);
      assert gs == [gs[0]] + gs[1..];
    }
  }

  /** A decoded list of chat turns is decoded element by element. */
  lemma {:induction false} DecodeTurnsSome(vs: seq<Value>, ts: seq<ChatTurn>)
    requires DecodeTurns(vs) == Some(ts)
    ensures |vs| == |ts|
    ensures forall i :: 0 <= i < |vs| ==> DecodeTurn(vs[i]) == Some(ts[i])
    decreases |vs|
  {
    if |vs| > 0 {
      var rest := DecodeTurns(vs[1..]).value;
      assert ts == [ts[0]] + rest;
      DecodeTurnsSome(vs[1..], rest);
      forall i | 1 <= i < |vs|
        ensures DecodeTurn(vs[i]) == Some(ts[i])
      {
        assert vs[i] == vs[1..][i - 1];
      }
    }
  }

  /** Element-by-element decoding of every turn decodes the whole list. */
  lemma {:induction false} DecodeTurnsOfElements(vs: seq<Value>, ts: seq<ChatTurn>)
    requires |vs| == |ts|
    requires forall i :: 0 <= i < |vs| ==> DecodeTurn(vs[i]) == Some(ts[i])
    ensures DecodeTurns(vs) == Some(ts)
    decreases |vs|
  {
    if |vs| > 0 {
      forall i | 0 <= i < |vs| - 1
        ensures DecodeTurn(vs[1..][i]) == Some(ts[1..][i])
      {
        assert vs[1..][i] == vs[i + 1];
      }
      DecodeTurnsOfElements(vs[1..], ts[1..]);
      assert ts == [ts[0]] + ts[1..];
    }
  }

  lemma DecodeTurnsRoundTrip(ts: seq<ChatTurn>)
    ensures DecodeTurns(TurnValues(ts)) == Some(ts)
  {
    DecodeTurnsOfElements(TurnValues(ts), ts);
  }

  /** The document layout of `write_context` and `init_context`; reading it back gives
      the view that was written. */
  function Encode(v: ContextView): (doc: ContextDoc)
    ensures doc.Keys == DocKeys
    ensures Decode(doc) == Some(v)
  {
    DecodeGoalsRoundTrip(v.goals);
    DecodeTurnsRoundTrip(v.chatHistory);
    map[
      BudgetKey := Obj(map[StatusKey := Str(v.status), AdviceKey := Str(v.advice)]),
      TotalIncomeKey := Num(v.totalIncome),
      TotalExpenseKey := Num(v.totalExpense),
      BalanceKey := Num(v.balance),
      GoalsKey := List(GoalValues(v.goals)),
      ChatKey := List(TurnValues(v.chatHistory))]
  }

  // ---------------------------------------------------------------------------
  // Operations

  /** The placeholder `init_context` writes. */
  const DefaultView: ContextView := ContextView("Unknown", "No data yet.", 0.0, 0.0, 0.0, [], [])

  function GoalEntries(goals: seq<Goal>): seq<GoalEntry>
  {
    seq(|goals|, i requires 0 <= i < |goals| => GoalEntry(goals[i].name, goals[i].targetAmount))
  }

  /** `write_context`: replaces whatever was stored by a fresh snapshot of the ledger;
      its own status rule depends only on the sign of the balance, and it empties the
      chat history. */
  function WriteContext(store: Store, incomes: seq<Income>, expenses: seq<Expense>, goals: seq<Goal>): (s: Store)
    ensures s.Some? && s.value.Keys == DocKeys && Decode(s.value).Some?
    ensures var v := Decode(s.value).value;
      && v.totalIncome == TotalIncome(incomes)
      && v.totalExpense == TotalExpense(expenses)
      && v.balance == v.totalIncome - v.totalExpense
      && (v.status == "Healthy" <==> v.balance >= 0.0)
      && (v.status == "Needs Attention" <==> v.balance < 0.0)
      && (v.advice == "Your budget looks good!" <==> v.balance >= 0.0)
      && (v.advice == "Try to reduce expenses." <==> v.balance < 0.0)
      && |v.goals| == |goals|
      && (forall i :: 0 <= i < |goals| ==> v.goals[i] == GoalEntry(goals[i].name, goals[i].targetAmount))
      && v.chatHistory == []
    ensures s == Some(Encode(Decode(s.value).value))
  {
    var totalIncome := TotalIncome(incomes);
    var totalExpense := TotalExpense(expenses);
    var balance := totalIncome - totalExpense;
    var status := if balance >= 0.0 then "Healthy" else "Needs Attention";
    var advice := if balance >= 0.0 then "Your budget looks good!" else "Try to reduce expenses.";
    Some(Encode(ContextView(status, advice, totalIncome, totalExpense, balance, GoalEntries(goals), [])))
  }

  /** The placeholder document `init_context` writes. */
  function DefaultDoc(): (doc: ContextDoc)
    ensures doc.Keys == DocKeys
    ensures History(doc) == Some([])
    ensures doc == Encode(DefaultView)
  {
    map[
      BudgetKey := Obj(map[StatusKey := Str("Unknown"), AdviceKey := Str("No data yet.")]),
      TotalIncomeKey := Num(0.0),
      TotalExpenseKey := Num(0.0),
      BalanceKey := Num(0.0),
      GoalsKey := List([]),
      ChatKey := List([])]
  }

  /** The placeholder reads as status "Unknown", advice "No data yet.", zero totals and
      balance, no goals and no chat history. */
  lemma DefaultDocDecodes()
    ensures DefaultDoc().Keys == DocKeys
    ensures Decode(DefaultDoc()) == Some(DefaultView)
  {
    assert DecodeGoals([]) == Some([]);
    assert DecodeTurns([]) == Some([]);
  }

  /** `init_context`: writes the placeholder only when no file exists. */
  function InitContext(store: Store): (s: Store)
    ensures s.Some?
    ensures store.Some? ==> s == store
    ensures store.None? ==> s == Some(DefaultDoc())
    ensures store.None? ==> s.value.Keys == DocKeys && History(s.value) == Some([])
  {
    if store.None? then Some(DefaultDoc()) else store
  }

  /** `read_context`: the stored document, creating the placeholder first when the file
      is absent. Returns the store after the call and the document read. */
  function ReadContext(store: Store): (r: (Store, ContextDoc))
    ensures r.0 == Some(r.1)
    ensures store.Some? ==> r.1 == store.value
    ensures store.None? ==> r.1 == DefaultDoc()
  {
    var s := InitContext(store);
    (s, s.value)
  }

  /** Reading a store with no file gives the placeholder and leaves the placeholder stored. */
  lemma ReadFreshStore()
    ensures ReadContext(None).0 == InitContext(None)
    ensures Decode(ReadContext(None).1) == Some(DefaultView)
  {
    DefaultDocDecodes();
  }

  /** `update_context`: a shallow merge in which the given keys win; the file must exist. */
  function UpdateContext(store: Store, data: ContextDoc): (r: Result<Store>)
    ensures r.Err? <==> store.None?
    ensures r.Err? ==> r.error == FileMissing
    ensures r.Ok? ==> r.value.Some? && r.value.value.Keys == store.value.Keys + data.Keys
    ensures r.Ok? ==> forall k :: k in data ==> r.value.value[k] == data[k]
    ensures r.Ok? ==> forall k :: k in store.value && k !in data ==> r.value.value[k] == store.value[k]
  {
    match store
    case None => Err(FileMissing)
    case Some(doc) => Ok(Some(doc + data))
  }

  /** The chat history as `append_chat_history` finds it: an absent key counts as an empty
      list, and anything other than a list cannot be appended to. */
  function History(doc: ContextDoc): (r: Option<seq<Value>>)
    ensures r.None? <==> ChatKey in doc && !doc[ChatKey].List?
    ensures ChatKey !in doc ==> r == Some([])
    ensures ChatKey in doc && r.Some? ==> doc[ChatKey] == List(r.value)
  {
    if ChatKey !in doc then Some([])
    else if doc[ChatKey].List? then Some(doc[ChatKey].items)
    else None
  }

  /** Appends one turn to a document's history and keeps the last 50; no other key changes. */
  function AppendTurn(doc: ContextDoc, turn: ChatTurn): (r: Result<ContextDoc>)
    ensures r.Err? <==> ChatKey in doc && !doc[ChatKey].List?
    ensures r.Err? ==> r.error == ChatHistoryNotAList
    ensures r.Ok? ==>
      && ChatKey in r.value
      && r.value == doc[ChatKey := r.value[ChatKey]]
      && r.value[ChatKey].List?
      && 0 < |r.value[ChatKey].items| <= MaxHistory
      && r.value[ChatKey].items == LastN(History(doc).value, MaxHistory - 1) + [TurnValue(turn)]
  {
    match History(doc)
    case None => Err(ChatHistoryNotAList)
    case Some(items) =>
      LastNSnoc(items, TurnValue(turn), MaxHistory);
      Ok(doc[ChatKey := List(LastN(items + [TurnValue(turn)], MaxHistory))])
  }

  /** `append_chat_history`: reads (initialising on demand), appends the turn, keeps the
      last 50 turns and writes back. When it fails the file already existed and is left
      as it was. */
  function AppendChatHistory(store: Store, sender: string, message: string): (r: Result<Store>)
    ensures r.Err? <==> store.Some? && ChatKey in store.value && !store.value[ChatKey].List?
    ensures r.Err? ==> r.error == ChatHistoryNotAList
    ensures r.Ok? ==> r.value.Some?
    ensures r.Ok? ==>
      var before := ReadContext(store).1;
      var after := r.value.value;
      && ChatKey in after
      && after == before[ChatKey := after[ChatKey]]
      && after[ChatKey].List?
      && 0 < |after[ChatKey].items| <= MaxHistory
      && after[ChatKey].items == LastN(History(before).value, MaxHistory - 1) + [TurnValue(ChatTurn(sender, message))]
  {
    var before := ReadContext(store).1;
    var appended := AppendTurn(before, ChatTurn(sender, message));
    if appended.Ok? then Ok(Some(appended.value)) else Err(appended.error)
  }

  /** `get_chat_history`: the stored `chat_history`, or an empty list when the key is
      missing; the store is initialised first if the file is absent. */
  function GetChatHistory(store: Store): (r: (Store, Value))
    ensures r.0.Some? && (store.Some? ==> r.0 == store)
    ensures store.None? ==> r.0 == Some(DefaultDoc())
    ensures store.None? ==> r.1 == List([])
    ensures store.Some? && ChatKey in store.value ==> r.1 == store.value[ChatKey]
    ensures store.Some? && ChatKey !in store.value ==> r.1 == List([])
  {
    var (s, doc) := ReadContext(store);
    (s, if ChatKey in doc then doc[ChatKey] else List([]))
  }

  // ---------------------------------------------------------------------------
  // Properties across operations

  /** Initialising twice is the same as initialising once. */
  lemma InitIdempotent(store: Store)
    ensures InitContext(InitContext(store)) == InitContext(store)
  {
  }

  /** Reading right after a write gives back the written document unchanged, whatever
      was stored before, and its chat history is empty. */
  lemma WriteThenRead(store: Store, incomes: seq<Income>, expenses: seq<Expense>, goals: seq<Goal>)
    ensures var s := WriteContext(store, incomes, expenses, goals);
      && ReadContext(s) == (s, s.value)
      && GetChatHistory(s).1 == List([])
  {
    var s := WriteContext(store, incomes, expenses, goals);
    assert Decode(s.value).value.chatHistory == [];
    assert s.value[ChatKey] == List([]) by {
      assert GetList(s.value, ChatKey).Some?;
      assert DecodeTurns(s.value[ChatKey].items) == Some([]);
      DecodeTurnsSome(s.value[ChatKey].items, []);
    }
  }

  /** Two merges in a row are one merge of the two updates, the later one winning. */
  lemma UpdateCompose(store: Store, d1: ContextDoc, d2: ContextDoc)
    requires store.Some?
    ensures UpdateContext(UpdateContext(store, d1).value, d2) == UpdateContext(store, d1 + d2)
  {
    var a := (store.value + d1) + d2;
    var b := store.value + (d1 + d2);
    assert a.Keys == b.Keys;
    assert forall k :: k in a ==> a[k] == b[k];
    assert a == b;
  }

  /** Merging the same data twice changes nothing the second time. */
  lemma UpdateIdempotent(store: Store, data: ContextDoc)
    requires store.Some?
    ensures UpdateContext(UpdateContext(store, data).value, data) == UpdateContext(store, data)
  {
    UpdateCompose(store, data, data);
    assert data + data == data;
  }

  /** The chat history of a stored document has at most 50 turns (an absent history or
      one of another shape is not a list of turns at all). */
  predicate HistoryBounded(store: Store)
  {
    store.Some? && ChatKey in store.value && store.value[ChatKey].List? ==> |store.value[ChatKey].items| <= MaxHistory
  }

  /** The bound on the chat history holds after every initialisation, write and successful
      append, and survives every merge that does not itself set the history. */
  lemma HistoryBoundInvariant(store: Store, incomes: seq<Income>, expenses: seq<Expense>, goals: seq<Goal>,
                              data: ContextDoc, sender: string, message: string)
    ensures HistoryBounded(store) ==> HistoryBounded(InitContext(store))
    ensures HistoryBounded(WriteContext(store, incomes, expenses, goals))
    ensures AppendChatHistory(store, sender, message).Ok? ==> HistoryBounded(AppendChatHistory(store, sender, message).value)
    ensures HistoryBounded(store) && store.Some? && ChatKey !in data ==> HistoryBounded(UpdateContext(store, data).value)
  {
    WriteThenRead(store, incomes, expenses, goals);
  }

  /** A merge may replace the history with a longer list: the bound is kept by the append
      path only, not by the store as a whole. */
  lemma UpdateCanExceedBound(doc: ContextDoc, long: seq<Value>)
    requires |long| > MaxHistory
    ensures !HistoryBounded(UpdateContext(Some(doc), map[ChatKey := List(long)]).value)
  {
  }

  /** Replacing the history of a well-formed document by a list of turns changes only
      the history in its typed view. */
  lemma DecodeWithHistory(doc: ContextDoc, v: ContextView, items: seq<Value>, ts: seq<ChatTurn>)
    requires Decode(doc) == Some(v)
    requires DecodeTurns(items) == Some(ts)
    ensures Decode(doc[ChatKey := List(items)]) == Some(v.(chatHistory := ts))
  {
    var after := doc[ChatKey := List(items)];
    assert BudgetKey != ChatKey && TotalIncomeKey != ChatKey && TotalExpenseKey != ChatKey;
    assert BalanceKey != ChatKey && GoalsKey != ChatKey;
    assert GetObj(after, BudgetKey) == GetObj(doc, BudgetKey);
    assert GetNum(after, TotalIncomeKey) == GetNum(doc, TotalIncomeKey);
    assert GetNum(after, TotalExpenseKey) == GetNum(doc, TotalExpenseKey);
    assert GetNum(after, BalanceKey) == GetNum(doc, BalanceKey);
    assert GetList(after, GoalsKey) == GetList(doc, GoalsKey);
    assert GetList(after, ChatKey) == Some(items);
  }

  /** Decoding commutes with the capped append: the values kept decode to the turns kept. */
  lemma DecodeCappedAppend(items: seq<Value>, ts: seq<ChatTurn>, t: ChatTurn)
    requires DecodeTurns(items) == Some(ts)
    ensures DecodeTurns(LastN(items + [TurnValue(t)], MaxHistory)) == Some(LastN(ts + [t], MaxHistory))
  {
    var newItems := LastN(items + [TurnValue(t)], MaxHistory);
    var newTurns := LastN(ts + [t], MaxHistory);
    DecodeTurnsSome(items, ts);
    forall i | 0 <= i < |newItems|
      ensures DecodeTurn(newItems[i]) == Some(newTurns[i])
    {
      var j := |items| + 1 - |newItems| + i;
      if j < |items| {
        assert newItems[i] == items[j];
        assert newTurns[i] == ts[j];
      } else {
        assert newItems[i] == TurnValue(t);
        assert newTurns[i] == t;
      }
    }
    DecodeTurnsOfElements(newItems, newTurns);
  }

  /** Appending to a stored document replaces its history by the capped append. */
  lemma AppendToStored(doc: ContextDoc, h: seq<Value>, t: ChatTurn)
    requires History(doc) == Some(h)
    ensures AppendChatHistory(Some(doc), t.sender, t.message)
         == Ok(Some(doc[ChatKey := List(LastN(h + [TurnValue(t)], MaxHistory))]))
  {
    assert ReadContext(Some(doc)).1 == doc;
    assert ChatTurn(t.sender, t.message) == t;
  }

  /** The capped append on a well-formed document, read through the typed view. */
  lemma DecodeAfterCappedAppend(doc: ContextDoc, v: ContextView, t: ChatTurn)
    requires Decode(doc) == Some(v)
    ensures GetList(doc, ChatKey).Some? && History(doc) == Some(doc[ChatKey].items)
    ensures Decode(doc[ChatKey := List(LastN(doc[ChatKey].items + [TurnValue(t)], MaxHistory))])
         == Some(v.(chatHistory := LastN(v.chatHistory + [t], MaxHistory)))
  {
    assert GetList(doc, ChatKey).Some?;
    var items := doc[ChatKey].items;
    var newItems := LastN(items + [TurnValue(t)], MaxHistory);
    DecodeCappedAppend(items, v.chatHistory, t);
    DecodeWithHistory(doc, v, newItems, LastN(v.chatHistory + [t], MaxHistory));
  }

  /** The typed view of a well-formed document after an append: everything but the chat
      history is as before, and the history is the last 50 of "old turns, then the new one",
      that is the last 49 old turns followed by the new one. */
  lemma AppendDecodes(doc: ContextDoc, v: ContextView, sender: string, message: string)
    requires Decode(doc) == Some(v)
    ensures AppendChatHistory(Some(doc), sender, message).Ok?
    ensures Decode(AppendChatHistory(Some(doc), sender, message).value.value)
         == Some(v.(chatHistory := LastN(v.chatHistory + [ChatTurn(sender, message)], MaxHistory)))
  {
    var t := ChatTurn(sender, message);
    DecodeAfterCappedAppend(doc, v, t);
    AppendToStored(doc, doc[ChatKey].items, t);
  }

  /** Appends the turns one at a time, stopping at the first failure. */
  function AppendAll(store: Store, turns: seq<ChatTurn>): Result<Store>
    decreases |turns|
  {
    if |turns| == 0 then Ok(store)
    else
      var first := AppendChatHistory(store, turns[0].sender, turns[0].message);
      if first.Ok? then AppendAll(first.value, turns[1..]) else first
  }

  /** One step of `AppendAll` on a stored document. */
  lemma AppendAllStep(doc: ContextDoc, h: seq<Value>, turns: seq<ChatTurn>)
    requires History(doc) == Some(h)
    requires |turns| > 0
    ensures AppendAll(Some(doc), turns)
         == AppendAll(Some(doc[ChatKey := List(LastN(h + [TurnValue(turns[0])], MaxHistory))]), turns[1..])
  {
    AppendToStored(doc, h, turns[0]);
  }

  /** Appending turns one at a time through the store is the capped append of their
      values, one after the other, to the stored history; nothing else changes. */
  lemma {:induction false} AppendAllCapped(doc: ContextDoc, h: seq<Value>, turns: seq<ChatTurn>)
    requires History(doc) == Some(h)
    requires |turns| > 0
    ensures AppendAll(Some(doc), turns)
         == Ok(Some(doc[ChatKey := List(CappedAppends(h, TurnValues(turns), MaxHistory))]))
    decreases |turns|
  {
    var vs := TurnValues(turns);
    var h1 := LastN(h + [TurnValue(turns[0])], MaxHistory);
    var doc1 := doc[ChatKey := List(h1)];
    AppendAllStep(doc, h, turns);
    assert vs[0] == TurnValue(turns[0]);
    assert vs[1..] == TurnValues(turns[1..]);
    if |turns| == 1 {
      assert vs[1..] == [];
    } else {
      assert History(doc1) == Some(h1);
      AppendAllCapped(doc1, h1, turns[1..]);
      var last := List(CappedAppends(h1, vs[1..], MaxHistory));
      assert doc1[ChatKey := last] == doc[ChatKey := last];
    }
  }

  /** Appending turns one at a time leaves the last 50 of the sequence "old history, then
      all the new turns": once 50 or more turns are appended no old turn survives. Nothing
      else in the document changes. */
  lemma AppendAllKeepsLast(doc: ContextDoc, h: seq<Value>, turns: seq<ChatTurn>)
    requires History(doc) == Some(h)
    requires |turns| > 0
    ensures AppendAll(Some(doc), turns) == Ok(Some(doc[ChatKey := List(LastN(h + TurnValues(turns), MaxHistory))]))
  {
    AppendAllCapped(doc, h, turns);
    CappedAppendsIsLastN(h, TurnValues(turns), MaxHistory);
  }

  /** With no file, the first append reads the placeholder, exactly as if it were stored. */
  lemma AppendFromNone(turns: seq<ChatTurn>)
    requires |turns| > 0
    ensures AppendAll(None, turns) == AppendAll(Some(DefaultDoc()), turns)
  {
    var t := turns[0];
    assert ReadContext(None).1 == ReadContext(Some(DefaultDoc())).1;
    assert AppendChatHistory(None, t.sender, t.message) == AppendChatHistory(Some(DefaultDoc()), t.sender, t.message);
  }

  /** Starting from no file at all and appending at least 50 turns one at a time, the
      history holds exactly the last 50 of them, in order (60 appends keep turns 11 to 60). */
  lemma FreshStoreKeepsLast50(turns: seq<ChatTurn>)
    requires |turns| >= MaxHistory
    ensures AppendAll(None, turns).Ok?
    ensures AppendAll(None, turns).value.Some?
    ensures ChatKey in AppendAll(None, turns).value.value
    ensures AppendAll(None, turns).value.value[ChatKey] == List(TurnValues(turns[|turns| - MaxHistory..]))
  {
    AppendFromNone(turns);
    AppendAllKeepsLast(DefaultDoc(), [], turns);
    LastTurnValues(turns);
  }

  /** The values of the last 50 turns are the last 50 values. */
  lemma LastTurnValues(turns: seq<ChatTurn>)
    requires |turns| >= MaxHistory
    ensures LastN([] + TurnValues(turns), MaxHistory) == TurnValues(turns[|turns| - MaxHistory..])
  {
    var vs := TurnValues(turns);
    assert [] + vs == vs;
    assert vs[|vs| - MaxHistory..] == TurnValues(turns[|turns| - MaxHistory..]);
  }

  /** After a successful append, reading the history back ends with the new turn. */
  lemma AppendThenGet(store: Store, sender: string, message: string)
    requires AppendChatHistory(store, sender, message).Ok?
    ensures var h := GetChatHistory(AppendChatHistory(store, sender, message).value).1;
      && h.List? && 0 < |h.items| <= MaxHistory
      && h.items[|h.items| - 1] == TurnValue(ChatTurn(sender, message))
  {
  }
}

=== FILE: goal_agent.dfy ===
/** `get_goal_progress`: per-goal progress measured against TOTAL INCOME, guarded against a
    zero target and capped at 100, with status at the 50% threshold. */
module GoalAgent {
  import opened Ledger

  datatype GoalStatus = OnTrack | NeedsFocus {
    function Label(): string {
      match this
      case OnTrack => "On Track \U{1F680}"
      case NeedsFocus => "Needs Focus \U{26A0}\U{FE0F}"
    }
  }

  /** One entry of the returned list; `progress` is the exact (unrounded) percentage. */
  datatype GoalProgress = GoalProgress(name: string, target: real, progress: real, status: GoalStatus)

  /** Python's `min(100, x)`: the first argument unless the second is strictly smaller. */
  function Cap(x: real): (r: real)
    ensures r <= 100.0 && r <= x
    ensures r == 100.0 || r == x
  {
    if x < 100.0 then x else 100.0
  }

  /** Progress toward a target: 100 for a zero target, otherwise the share of the target
      covered by total income, never above 100. */
  function Percentage(totalIncome: real, target: real): (p: real)
    ensures p <= 100.0
    ensures target == 0.0 ==> p == 100.0
    ensures target != 0.0 ==> p * target == totalIncome * 100.0 || p == 100.0
    ensures target > 0.0 ==> (p == 100.0 <==> totalIncome >= target)
    ensures target < 0.0 ==> (p == 100.0 <==> totalIncome <= target)
    ensures target > 0.0 && totalIncome >= 0.0 ==> 0.0 <= p
  {
    if target == 0.0 then 100.0
    else
      FullThreshold(totalIncome, target);
      Cap(totalIncome / target * 100.0)
  }

  /** The whole target is reached exactly when the uncapped percentage reaches 100. */
  lemma FullThreshold(a: real, t: real)
    requires t != 0.0
    ensures a / t * 100.0 >= 100.0 <==> (t > 0.0 && a >= t) || (t < 0.0 && a <= t)
  {
    var q := a / t;
    assert q * t == a;
    assert q * 100.0 >= 100.0 <==> q >= 1.0;
    if t > 0.0 {
      if q >= 1.0 {
        assert q * t >= 1.0 * t;
      } else {
        assert q * t < 1.0 * t;
      }
    } else {
      if q >= 1.0 {
        assert q * t <= 1.0 * t;
      } else {
        assert q * t > 1.0 * t;
      }
    }
  }

  /** `status = "On Track" if progress >= 50 else "Needs Focus"`, on the unrounded value. */
  function StatusOf(progress: real): (s: GoalStatus)
    ensures s.Label() == "On Track \U{1F680}" <==> progress >= 50.0
    ensures s.Label() == "Needs Focus \U{26A0}\U{FE0F}" <==> progress < 50.0
  {
    if progress >= 50.0 then OnTrack else NeedsFocus
  }

  /** Half of the target is reached exactly when the percentage reaches 50. */
  lemma HalfThreshold(a: real, t: real)
    requires t != 0.0
    ensures a / t * 100.0 >= 50.0 <==> (t > 0.0 && 2.0 * a >= t) || (t < 0.0 && 2.0 * a <= t)
  {
    var q := a / t;
    assert q * t == a;
    assert q * 100.0 >= 50.0 <==> q >= 0.5;
    if t > 0.0 {
      if q >= 0.5 {
        assert q * t >= 0.5 * t;
      } else {
        assert q * t < 0.5 * t;
      }
    } else {
      if q >= 0.5 {
        assert q * t <= 0.5 * t;
      } else {
        assert q * t > 0.5 * t;
      }
    }
  }

  /** The status decided directly from the inputs: on track when the target is zero, or
      when income covers at least half of it (for a negative target the division flips
      the comparison). */
  lemma StatusFromInputs(totalIncome: real, target: real)
    ensures StatusOf(Percentage(totalIncome, target)) == OnTrack <==>
      (target == 0.0
       || (target > 0.0 && 2.0 * totalIncome >= target)
       || (target < 0.0 && 2.0 * totalIncome <= target))
  {
    if target != 0.0 {
      HalfThreshold(totalIncome, target);
    }
  }

  function Evaluate(totalIncome: real, goal: Goal): (g: GoalProgress)
    ensures g.name == goal.name && g.target == goal.targetAmount
    ensures g.progress == Percentage(totalIncome, goal.targetAmount)
    ensures g.status == OnTrack <==> g.progress >= 50.0
  {
    var p := Percentage(totalIncome, goal.targetAmount);
    GoalProgress(goal.name, goal.targetAmount, p, StatusOf(p))
  }

  /** The loop over goals: one entry per goal, in goal order. */
  function ProgressList(totalIncome: real, goals: seq<Goal>): (r: seq<GoalProgress>)
    ensures |r| == |goals|
    ensures forall i :: 0 <= i < |goals| ==> r[i].name == goals[i].name && r[i].target == goals[i].targetAmount
    ensures forall i :: 0 <= i < |goals| ==> r[i].progress <= 100.0
    ensures forall i :: 0 <= i < |goals| ==> (r[i].status == OnTrack <==> r[i].progress >= 50.0)
    ensures forall i :: 0 <= i < |goals| ==> goals[i].targetAmount == 0.0 ==> r[i].progress == 100.0 && r[i].status == OnTrack
    decreases |goals|
  {
    if |goals| == 0 then []
    else ProgressList(totalIncome, goals[..|goals| - 1]) + [Evaluate(totalIncome, goals[|goals| - 1])]
  }

  /** `get_goal_progress()` over the full income and goal records. */
  function GetGoalProgress(incomes: seq<Income>, goals: seq<Goal>): (r: seq<GoalProgress>)
    ensures |r| == |goals|
    ensures forall i :: 0 <= i < |goals| ==> r[i] == Evaluate(TotalIncome(incomes), goals[i])
  {
    ProgressListIsMap(TotalIncome(incomes), goals);
    ProgressList(TotalIncome(incomes), goals)
  }

  /** The list is exactly the per-goal evaluation applied element by element. */
  lemma {:induction false} ProgressListIsMap(totalIncome: real, goals: seq<Goal>)
    ensures forall i :: 0 <= i < |goals| ==> ProgressList(totalIncome, goals)[i] == Evaluate(totalIncome, goals[i])
    decreases |goals|
  {
    if |goals| > 0 {
      ProgressListIsMap(totalIncome, goals[..|goals| - 1]);
    }
  }

  /** With non-negative income and positive targets every percentage lies in [0, 100]. */
  lemma ProgressBounded(incomes: seq<Income>, goals: seq<Goal>)
    requires forall i :: 0 <= i < |incomes| ==> incomes[i].amount >= 0.0
    requires forall j :: 0 <= j < |goals| ==> goals[j].targetAmount > 0.0
    ensures forall j :: 0 <= j < |goals| ==> 0.0 <= GetGoalProgress(incomes, goals)[j].progress <= 100.0
  {
    TotalIncomeNonNegative(incomes);
  }
}

=== FILE: ledger.dfy ===
/** The ledger records the core reads (income, expense, goal) and the totals every
    component recomputes from the full record sets. */
module Ledger {
  import opened Optional
  import opened Seqs

  datatype Income = Income(amount: real, source: string)

  /** `receiptImage` is the stored receipt file name, absent when nothing was uploaded. */
  datatype Expense = Expense(amount: real, category: string, satisfaction: int, receiptImage: Option<string>)

  datatype Goal = Goal(name: string, targetAmount: real)

  function IncomeAmounts(incomes: seq<Income>): seq<real>
  {
    seq(|incomes|, i requires 0 <= i < |incomes| => incomes[i].amount)
  }

  function ExpenseAmounts(expenses: seq<Expense>): seq<real>
  {
    seq(|expenses|, i requires 0 <= i < |expenses| => expenses[i].amount)
  }

  /** `sum(income.amount for income in incomes)` */
  function TotalIncome(incomes: seq<Income>): real
  {
    Sum(IncomeAmounts(incomes))
  }

  /** `sum(expense.amount for expense in expenses)` */
  function TotalExpense(expenses: seq<Expense>): real
  {
    Sum(ExpenseAmounts(expenses))
  }

  /** `total_income - total_expense` over the full record sets. */
  function Balance(incomes: seq<Income>, expenses: seq<Expense>): real
  {
    TotalIncome(incomes) - TotalExpense(expenses)
  }

  /** Recomputing from scratch agrees with incremental bookkeeping: recording one more
      income raises the total by exactly its amount. */
  lemma TotalIncomeSnoc(incomes: seq<Income>, x: Income)
    ensures TotalIncome(incomes + [x]) == TotalIncome(incomes) + x.amount
  {
    assert IncomeAmounts(incomes + [x]) == IncomeAmounts(incomes) + [x.amount];
    SumAppend(IncomeAmounts(incomes), [x.amount]);
  }

  lemma TotalExpenseSnoc(expenses: seq<Expense>, x: Expense)
    ensures TotalExpense(expenses + [x]) == TotalExpense(expenses) + x.amount
  {
    assert ExpenseAmounts(expenses + [x]) == ExpenseAmounts(expenses) + [x.amount];
    SumAppend(ExpenseAmounts(expenses), [x.amount]);
  }

  /** The total of a ledger split in two is the sum of the parts' totals. */
  lemma TotalIncomeAppend(a: seq<Income>, b: seq<Income>)
    ensures TotalIncome(a + b) == TotalIncome(a) + TotalIncome(b)
  {
    assert IncomeAmounts(a + b) == IncomeAmounts(a) + IncomeAmounts(b);
    SumAppend(IncomeAmounts(a), IncomeAmounts(b));
  }

  lemma TotalExpenseAppend(a: seq<Expense>, b: seq<Expense>)
    ensures TotalExpense(a + b) == TotalExpense(a) + TotalExpense(b)
  {
    assert ExpenseAmounts(a + b) == ExpenseAmounts(a) + ExpenseAmounts(b);
    SumAppend(ExpenseAmounts(a), ExpenseAmounts(b));
  }

  /** Non-negative income amounts give a non-negative total. */
  lemma TotalIncomeNonNegative(incomes: seq<Income>)
    requires forall i :: 0 <= i < |incomes| ==> incomes[i].amount >= 0.0
    ensures TotalIncome(incomes) >= 0.0
  {
    SumNonNegative(IncomeAmounts(incomes));
  }

  lemma TotalExpenseNonNegative(expenses: seq<Expense>)
    requires forall i :: 0 <= i < |expenses| ==> expenses[i].amount >= 0.0
    ensures TotalExpense(expenses) >= 0.0
  {
    SumNonNegative(ExpenseAmounts(expenses));
  }
}

=== FILE: optional.dfy ===
/** An optional value, usable with `:-` so that a missing piece short-circuits a decoder. */
module Optional {

  datatype Option<+T> = None | Some(value: T) {

    predicate IsFailure() {
      None?
    }

    function PropagateFailure<U>(): Option<U>
      requires None?
    {
      None
    }

    function Extract(): T
      requires Some?
    {
      value
    }
  }
}

=== FILE: policies.dfy ===
/** How the three places that judge the same ledger relate to one another: the budget
    agent's verdict, the status `write_context` stores, and the two goal rules of the
    goal agent and of the context builder. */
module Policies {
  import opened Optional
  import opened Ledger
  import BudgetAgent
  import GoalAgent
  import ContextAgent
  import ContextStore

  /** The status `write_context` stores for a ledger. */
  function StoredStatus(store: ContextStore.Store, incomes: seq<Income>, expenses: seq<Expense>, goals: seq<Goal>): string
  {
    ContextStore.Decode(ContextStore.WriteContext(store, incomes, expenses, goals).value).value.status
  }

  /** With some income, the budget agent reports a deficit exactly when the cache stores
      "Needs Attention"; every other verdict is stored as "Healthy". */
  lemma DeficitMatchesNeedsAttention(store: ContextStore.Store, incomes: seq<Income>, expenses: seq<Expense>, goals: seq<Goal>)
    requires TotalIncome(incomes) != 0.0
    ensures BudgetAgent.GetBudgetSummary(incomes, expenses).verdict == BudgetAgent.Deficit
        <==> StoredStatus(store, incomes, expenses, goals) == "Needs Attention"
    ensures BudgetAgent.GetBudgetSummary(incomes, expenses).verdict != BudgetAgent.Deficit
        <==> StoredStatus(store, incomes, expenses, goals) == "Healthy"
  {
  }

  /** The cache has no counterpart of the warning band: a ledger the budget agent warns
      about (80 spent of 100 earned) is stored as "Healthy". */
  lemma WarningStoredHealthy(store: ContextStore.Store)
    ensures var incomes := [Income(100.0, "job")];
      var expenses := [Expense(80.0, "food", 3, None)];
      && BudgetAgent.GetBudgetSummary(incomes, expenses).verdict == BudgetAgent.Warning
      && StoredStatus(store, incomes, expenses, []) == "Healthy"
  {
    BudgetAgent.WarningExample();
  }

  /** Without income the budget agent gives no verdict on spending, while the cache marks
      the budget as needing attention as soon as anything was spent. */
  lemma NoIncomeVerdicts(store: ContextStore.Store, incomes: seq<Income>, expenses: seq<Expense>, goals: seq<Goal>)
    requires TotalIncome(incomes) == 0.0
    ensures BudgetAgent.GetBudgetSummary(incomes, expenses).verdict == BudgetAgent.NoIncome
    ensures StoredStatus(store, incomes, expenses, goals) == "Needs Attention" <==> TotalExpense(expenses) > 0.0
  {
  }

  /** The goal agent measures goals against total income, the context builder against the
      balance; with nothing spent the two agree on every goal with a positive target. */
  lemma GoalRulesAgreeWithoutSpending(incomes: seq<Income>, expenses: seq<Expense>, goal: Goal)
    requires TotalExpense(expenses) == 0.0
    requires goal.targetAmount > 0.0
    ensures GoalAgent.Evaluate(TotalIncome(incomes), goal).status == GoalAgent.OnTrack
        <==> ContextAgent.EvaluateGoal(Balance(incomes, expenses), goal).status == ContextAgent.OnTrack
  {
    GoalAgent.StatusFromInputs(TotalIncome(incomes), goal.targetAmount);
  }

  /** When no expense is negative, a goal the context builder calls on track is on track
      for the goal agent as well. */
  lemma ContextOnTrackImpliesGoalOnTrack(incomes: seq<Income>, expenses: seq<Expense>, goal: Goal)
    requires forall i :: 0 <= i < |expenses| ==> expenses[i].amount >= 0.0
    requires ContextAgent.EvaluateGoal(Balance(incomes, expenses), goal).status == ContextAgent.OnTrack
    ensures GoalAgent.Evaluate(TotalIncome(incomes), goal).status == GoalAgent.OnTrack
  {
    TotalExpenseNonNegative(expenses);
    GoalAgent.StatusFromInputs(TotalIncome(incomes), goal.targetAmount);
  }

  /** The converse fails: spending all of a 100 income leaves a 100 goal fully reached for
      the goal agent but at 0% for the context builder. */
  lemma GoalRulesDiverge()
    ensures var incomes := [Income(100.0, "job")];
      var expenses := [Expense(100.0, "rent", 2, None)];
      var goal := Goal("trip", 100.0);
      && GoalAgent.Evaluate(TotalIncome(incomes), goal).status == GoalAgent.OnTrack
      && ContextAgent.EvaluateGoal(Balance(incomes, expenses), goal).status == ContextAgent.NeedsAttention
  {
    var incomes := [Income(100.0, "job")];
    var expenses := [Expense(100.0, "rent", 2, None)];
    assert IncomeAmounts(incomes) == [100.0];
    assert ExpenseAmounts(expenses) == [100.0];
    GoalAgent.StatusFromInputs(100.0, 100.0);
  }
}

=== FILE: seqs.dfy ===
/** Sequence helpers shared by the agents and the context store: summation,
    Python's negative-index tail slice, and Python's `str.join`. */
module Seqs {

  /** Python's `sum(...)`: a left fold over the sequence starting at zero. */
  function Sum(xs: seq<real>): real
  {
    if |xs| == 0 then 0.0 else Sum(xs[..|xs| - 1]) + xs[|xs| - 1]
  }

  /** Summation distributes over concatenation, whatever the order of the fold. */
  lemma {:induction false} SumAppend(a: seq<real>, b: seq<real>)
    ensures Sum(a + b) == Sum(a) + Sum(b)
    decreases |b|
  {
    if |b| == 0 {
      assert a + b == a;
    } else {
      var b' := b[..|b| - 1];
      assert (a + b)[..|a + b| - 1] == a + b';
      SumAppend(a, b');
    }
  }

  /** A sum of non-negative amounts is non-negative. */
  lemma {:induction false} SumNonNegative(xs: seq<real>)
    requires forall i :: 0 <= i < |xs| ==> xs[i] >= 0.0
    ensures Sum(xs) >= 0.0
    decreases |xs|
  {
    if |xs| > 0 {
      SumNonNegative(xs[..|xs| - 1]);
    }
  }

  /** The last `k` elements of `s`, or all of `s` when it has fewer: for k > 0 this is
      Python's `s[-k:]`, and literally the `s[-k:] if len(s) >= k else s` idiom. */
  function LastN<T>(s: seq<T>, k: nat): seq<T>
  {
    if |s| >= k then s[|s| - k..] else s
  }

  /** The result is the suffix of `s` of length `min(k, |s|)`. */
  lemma LastNSuffix<T>(s: seq<T>, k: nat)
    ensures |LastN(s, k)| == if |s| < k then |s| else k
    ensures LastN(s, k) == s[|s| - |LastN(s, k)|..]
    ensures forall i :: 0 <= i < |LastN(s, k)| ==> LastN(s, k)[i] == s[|s| - |LastN(s, k)| + i]
  {
  }

  /** Taking the last `k` after appending one element keeps the last `k - 1` of the
      old sequence followed by the new element. */
  lemma LastNSnoc<T>(s: seq<T>, x: T, k: nat)
    requires k > 0
    ensures LastN(s + [x], k) == LastN(s, k - 1) + [x]
  {
    var t := s + [x];
    if |t| >= k {
      assert t[|t| - k..] == s[|s| - (k - 1)..] + [x];
    }
  }

  /** Truncating before appending more does not change the final tail: this is what makes
      repeated capped appends equal to one cap over the whole history. */
  lemma LastNAbsorb<T>(a: seq<T>, b: seq<T>, k: nat)
    ensures LastN(LastN(a, k) + b, k) == LastN(a + b, k)
  {
    if |a| > k {
      var a' := a[|a| - k..];
      var lhs := LastN(a' + b, k);
      var rhs := LastN(a + b, k);
      assert |lhs| == |rhs| == k;
      forall i | 0 <= i < k
        ensures lhs[i] == rhs[i]
      {
        var j := |b| + i;
        if j < k {
          assert lhs[i] == a'[j] == a[|a| - k + j];
          assert rhs[i] == (a + b)[|a| + |b| - k + i];
        } else {
          assert lhs[i] == b[j - k];
          assert rhs[i] == (a + b)[|a| + |b| - k + i];
        }
      }
    }
  }

  /** Appends the elements of `xs` one at a time, keeping only the last `k` after each. */
  function CappedAppends<T>(s: seq<T>, xs: seq<T>, k: nat): seq<T>
    decreases |xs|
  {
    if |xs| == 0 then s else CappedAppends(LastN(s + [xs[0]], k), xs[1..], k)
  }

  /** Capping after every append is the same as capping once at the end. */
  lemma {:induction false} CappedAppendsIsLastN<T>(s: seq<T>, xs: seq<T>, k: nat)
    requires |xs| > 0
    ensures CappedAppends(s, xs, k) == LastN(s + xs, k)
    decreases |xs|
  {
    var s1 := LastN(s + [xs[0]], k);
    assert s + [xs[0]] + xs[1..] == s + xs;
    if |xs| > 1 {
      CappedAppendsIsLastN(s1, xs[1..], k);
      LastNAbsorb(s + [xs[0]], xs[1..], k);
    } else {
      assert xs[1..] == [];
      assert s + [xs[0]] == s + xs;
    }
  }

  /** Python's `sep.join(items)`. */
  function Join(sep: string, items: seq<string>): string
  {
    if |items| == 0 then ""
    else if |items| == 1 then items[0]
    else items[0] + sep + Join(sep, items[1..])
  }

  /** Joining grows from the left: one more item adds one separator and the item at the end. */
  lemma {:induction false} JoinSnoc(sep: string, items: seq<string>, x: string)
    requires |items| > 0
    ensures Join(sep, items + [x]) == Join(sep, items) + sep + x
    decreases |items|
  {
    if |items| == 1 {
      assert (items + [x])[1..] == [x];
    } else {
      assert (items + [x])[1..] == items[1..] + [x];
      JoinSnoc(sep, items[1..], x);
    }
  }

  /** Joining non-empty items yields the empty string exactly when there is nothing to join. */
  lemma JoinEmptyIff(sep: string, items: seq<string>)
    requires forall i :: 0 <= i < |items| ==> |items[i]| > 0
    ensures Join(sep, items) == "" <==> |items| == 0
  {
    if |items| > 0 {
      assert |Join(sep, items)| >= |items[0]|;
    }
  }
}
